=== FILE: README.md ===
# Giophantus prototype: verified model of the polynomial-ring core

This project models the arithmetic core of the two C++ prototypes of the
Giophantus public-key scheme. That core is polynomial arithmetic over Z_q, plus
the deterministic steps of encryption and decryption:

- `Giophantus_druft.cpp`: the field functions `mod`/`add`/`sub`/`mul`, and the
  `Polynomial` class with `degree`, `trim`, `operator+`, `operator*`,
  `mod_tn` (reduction into Z_q[t]/(t^n − 1)) and `eval`. Also `encrypt` and
  `decrypt`.
- `main.cpp`: the static `FieldArithmetic` helper and the redesigned
  `Polynomial`. Its `+` and `*` always work mod `MODULO = 17`, while
  `evaluate` takes its modulus as an argument. Also modelled: the output
  contract of `RandomPolynomialGenerator::generate` and
  `GiophantusKeyGen::generate`.

Layout:

- `mod_arith.dfy` (`ModArith`) models C++'s truncating `%` and proves that
  the sources' `((a % p) + p) % p` is the mathematical residue. It also holds
  the congruence facts that the other proofs use.
- `ring.dfy` (`Ring`) gives reference definitions of each ring operation as a
  closed-form sum. These cover the coefficient-wise sum, the convolution, the
  fold by i mod n, the power sum and the canonical (trimmed) form.
- `ring_laws.dfy` (`RingLaws`) and `eval_laws.dfy` (`EvalLaws`) prove what
  those definitions promise:
  - lengths and ranges;
  - commutativity of `+` and `*`;
  - idempotence of `mod_tn`, `trim` and coefficient-wise residues;
  - `mod_tn` is additive;
  - evaluation is additive and multiplicative;
  - `mod_tn` keeps the value at every t with t^n ≡ 1 (mod q). This is what
    "reduction by t^n − 1" means.
- `giophantus.dfy` (`Giophantus`) and `redesign.dfy` (`FieldArithmetic`,
  `Redesign`) model the two source files. `Polynomial` is a class whose
  `coeffs` vector `Trim` and `decrypt` update in place. The operators fill a
  local result array in the sources' own loops, and each is proved equal to
  its reference definition.

The model follows what the code does, including these points:

- `encrypt` does not check the message length against `mlen`.
- `decrypt` does not check the ciphertext length.
- Evaluation accumulates powers (value += c·power; power *= t). It is not
  Horner's scheme.
- `decrypt` never uses the secret `ux`, `uy`.

`Giophantus_druft.cpp` reads `q`, `n` and `l` from globals it never declares.
In the model they are explicit parameters. `Encrypt` takes `q` and `n` from
its parameter set.

## Model

| member | source | states |
|---|---|---|
| `ModArith.CModIsEuclidean` | Giophantus_druft.cpp:34-36 | for p > 0 the C++ expression ((a % p) + p) % p, with truncating %, equals the mathematical residue a mod p |
| `Giophantus.Mod` | Giophantus_druft.cpp:34-36 | `mod(a, p)` lies in [0, p) and is a's residue mod p (congruent to a) |
| `Giophantus.Add` | Giophantus_druft.cpp:38-40 | `add` returns (a + b) mod p, in [0, p) |
| `Giophantus.Mul` | Giophantus_druft.cpp:42-44 | `mul` returns (a · b) mod p, in [0, p) |
| `Giophantus.Sub` | Giophantus_druft.cpp:46-48 | `sub` returns (a − b) mod p, in [0, p) |
| `Giophantus.SubUndoesAdd` | Giophantus_druft.cpp:38-48 | sub(add(a, b), b) is a mod p: subtraction inverts addition in the field |
| `Giophantus.AddUndoesSub` | Giophantus_druft.cpp:38-48 | add(sub(a, b), b) is a mod p: addition inverts subtraction in the field |
| `Giophantus.Polynomial.constructor` | Giophantus_druft.cpp:55 | `Polynomial(d)` holds d + 1 zero coefficients |
| `Giophantus.Polynomial.FromCoeffs` | Giophantus_druft.cpp:57 | `Polynomial(c)` holds exactly the vector c |
| `Giophantus.IsSample` | Giophantus_druft.cpp:117-118 | what `random_polynomial(degree, bound)` can return: degree + 1 coefficients, each drawn from [0, bound − 1]; `Encrypt` requires this of r and e |
| `Giophantus.Polynomial.Degree` | Giophantus_druft.cpp:59-61 | degree is size − 1, at least −1, and −1 exactly for the empty polynomial |
| `Giophantus.Polynomial.Trim` | Giophantus_druft.cpp:63-67 | after trim the coefficients are the canonical form of the old ones: the longest prefix not ending in 0, all dropped entries 0 |
| `Giophantus.Polynomial.Plus` | Giophantus_druft.cpp:70-78 | `A + B` has max(\|A\|, \|B\|) coefficients, coefficient i being (A[i] + B[i]) mod q with missing coefficients read as 0 |
| `Giophantus.Polynomial.Times` | Giophantus_druft.cpp:81-89 | `A * B` (not both empty) has \|A\| + \|B\| − 1 coefficients, coefficient k being (sum of A[i]·B[j] over i + j = k) mod q |
| `Giophantus.Polynomial.ModTn` | Giophantus_druft.cpp:92-99 | `mod_tn` returns exactly n coefficients, coefficient k being (sum of A[i] over i ≡ k mod n) mod q |
| `Giophantus.Polynomial.Eval` | Giophantus_druft.cpp:102-110 | `eval(t)` returns (sum of c_i · t^i) mod q |
| `Giophantus.Encrypt` | Giophantus_druft.cpp:153-158 | with the sampled r and e given, the ciphertext is mod_tn(m + mod_tn(X·r) + e), which equals mod_tn(m) + mod_tn(X·r) + mod_tn(e) in the ring; it has exactly n coefficients, all in [0, q) |
| `Giophantus.Decrypt` | Giophantus_druft.cpp:162-168 | the result has the ciphertext's length and coefficient i is ciphertext[i] mod l; it does not depend on ux or uy |
| `Ring.Trimmed` | main.cpp:52-56 | the canonical form is a prefix of the vector that is empty or ends in a non-zero coefficient, and every dropped coefficient is 0 |
| `RingLaws.TrimmedIdempotent` | Giophantus_druft.cpp:63-67 | trimming twice equals trimming once |
| `RingLaws.TrimmedUnique` | main.cpp:52-56 | any prefix that drops only zeros and does not end in 0 is the trimmed form, so trim removes trailing zeros and nothing else |
| `RingLaws.TrimmedZeros` | main.cpp:44 | a polynomial of zero coefficients (as `Polynomial(d)` builds) trims to the empty polynomial |
| `RingLaws.PlusCommutes` | Giophantus_druft.cpp:70-78 | polynomial addition is commutative |
| `RingLaws.PlusShape` | main.cpp:58-68 | `+` has max(\|A\|, \|B\|) coefficients in [0, q); where both exist coefficient i is (A[i] + B[i]) mod q, elsewhere the longer operand's coefficient mod q |
| `RingLaws.PlusZeros` | main.cpp:58-68 | adding `Polynomial(d)` to an A with at least d + 1 coefficients, all in [0, q), returns A unchanged |
| `RingLaws.TimesShape` | Giophantus_druft.cpp:81-89 | the product has \|A\| + \|B\| − 1 coefficients, all in [0, q) |
| `RingLaws.TimesByEmpty` | main.cpp:70-80 | the empty polynomial times any non-empty B trims to the empty polynomial |
| `RingLaws.TimesByOne` | Giophantus_druft.cpp:81-89 | the constant 1 times B gives B's coefficients mod q |
| `RingLaws.TimesCommutes` | main.cpp:70-80 | polynomial multiplication is commutative |
| `RingLaws.ReduceShape` | Giophantus_druft.cpp:92-99 | `mod_tn` yields exactly n coefficients, all in [0, q) |
| `RingLaws.ReduceIdempotent` | Giophantus_druft.cpp:92-99 | applying `mod_tn` to its own output returns the same vector |
| `RingLaws.ReducePlus` | Giophantus_druft.cpp:92-99 | `mod_tn` of a sum is the sum of the `mod_tn`s: the reduction is additive |
| `RingLaws.ValuePlus` | Giophantus_druft.cpp:102-110 | the value of A + B at t is (value of A + value of B) mod q |
| `RingLaws.ValueTrimmed` | main.cpp:82-92 | a polynomial and its trimmed form evaluate to the same field element |
| `RingLaws.ResiduesShape` | Giophantus_druft.cpp:162-168 | coefficient-wise reduction mod l keeps the length, lands in [0, l) and keeps every coefficient congruent |
| `RingLaws.ResiduesOfNormalized` | Giophantus_druft.cpp:162-168 | a vector already in [0, l) is left unchanged by the reduction mod l |
| `RingLaws.ResiduesIdempotent` | Giophantus_druft.cpp:162-168 | reducing mod l twice equals reducing once, so decrypting a decryption changes nothing |
| `EvalLaws.ReduceKeepsValue` | Giophantus_druft.cpp:92-99 | `mod_tn` is reduction by t^n − 1: wherever t^n ≡ 1 (mod q) the reduced polynomial has the same value at t |
| `EvalLaws.ValueTimes` | main.cpp:82-92 | the value of A * B at x is (value of A · value of B) mod q: evaluation is multiplicative |
| `FieldArithmetic.Mod` | main.cpp:25-27 | `FieldArithmetic::mod(a, m)` lies in [0, m) and is a's residue mod m |
| `FieldArithmetic.Add` | main.cpp:29-31 | `FieldArithmetic::add` returns (a + b) mod m, in [0, m) |
| `FieldArithmetic.Mul` | main.cpp:33-35 | `FieldArithmetic::mul` returns (a · b) mod m, in [0, m) |
| `Redesign.Polynomial.constructor` | main.cpp:44 | `Polynomial(d)` holds d + 1 zero coefficients |
| `Redesign.Polynomial.Degree` | main.cpp:48-50 | degree is size − 1, and −1 exactly for the empty polynomial |
| `Redesign.Polynomial.Trim` | main.cpp:52-56 | after trim the coefficients are the canonical form of the old ones |
| `Redesign.Polynomial.Plus` | main.cpp:58-68 | `A + B` has max(\|A\|, \|B\|) coefficients, coefficient i being (A[i] + B[i]) mod 17, missing coefficients read as 0 |
| `Redesign.Polynomial.Times` | main.cpp:70-80 | `A * B` (not both empty) has \|A\| + \|B\| − 1 coefficients, coefficient k being (sum of A[i]·B[j] over i + j = k) mod 17 |
| `Redesign.Polynomial.Evaluate` | main.cpp:82-92 | `evaluate(x, m)` returns (sum of c_i · x^i) mod m |
| `Redesign.Polynomial.FromCoeffs` | main.cpp:46 | `Polynomial(c)` holds exactly the vector c |
| `Redesign.AreDraws` | main.cpp:104-105 | what the inclusive distribution can supply to `generate`: at least degree + 1 draws, each in [0, maxCoeff] |
| `Redesign.Generate` | main.cpp:103-109 | from a stream of draws, the generated polynomial takes exactly the first degree + 1, the size of the vector it allocates, so its degree is the requested one and every coefficient lies in [0, maxCoeff] |
| `Giophantus.PresetsAdmissible` | Giophantus_druft.cpp:23-25 | the three preset parameter sets have positive q, n and l and degree bounds of at least −1, as `Encrypt` and `Decrypt` need |
| `Redesign.PresetsAdmissible` | main.cpp:153-155 | the three preset parameter sets have a degree of at least −1, a non-negative noise bound and a positive modulus, as `KeyGen` needs; the 128-bit set equals the defaults (17, 11, 4) of main.cpp:10-12 |
| `Redesign.KeyGen` | main.cpp:123-130 | key generation takes degree + 1 draws for each of ux, uy and X, so ux and uy have degree() ≤ params.degree, which `test_keygen` asserts, and X has coefficients in [0, modulo) |

## Left out

- Giophantus.Mul: does not model the 32-bit overflow of `a * b` (or of `a + b` in `Giophantus.Add` and `a - b` in `Giophantus.Sub`) on large inputs. Integers are unbounded, so the residue is always the mathematical one.
- FieldArithmetic.Mul: does not model 32-bit overflow, for the same reason.
- Random sampling: `random_polynomial` in `Giophantus_druft.cpp` and the Mersenne Twister behind `RandomPolynomialGenerator` in `main.cpp` are not modelled. `Encrypt` takes the sampled `r` and `e` as arguments. Its preconditions (`IsSample`) say only what the sampler can return: degree + 1 coefficients in [0, bound − 1]. `Generate` and `KeyGen` take the distribution's draws as a stream argument, of which each polynomial uses the first degree + 1.
- `generate_irreducible_X` (Giophantus_druft.cpp:133-142) and the druft `keygen` wrapper are not modelled. The function loops with no retry bound. Its validator `is_irreducible` is a placeholder that always returns true, so the function accepts the first draw. What is left is just a call to the sampler, whose randomness is outside the model.
- Harness code is left out: both `main` functions, `test_keygen`, `test_polynomial_operations` and all console output. The unused `Signature` struct is also left out. The `GiophantusKey` holder is represented by `KeyGen`'s three results.
- Concurrency: none exists. The parallel headers in `main.cpp` are commented out.
- `operator*` with two empty operands computes its size as `0 + 0 - 1` in `size_t` and wraps to a huge allocation. The model requires that the operands are not both empty. One empty operand is allowed, as in the code.
- Two other inputs are excluded by preconditions:
  - `Polynomial(d)` with d < −1 is a negative vector size, so the constructor requires d ≥ −1.
  - `mod_tn` requires n > 0. For n < 0 the `resize` fails. For n == 0 with a non-empty vector, `i % n` divides by zero. The one defined case with n ≤ 0 is n == 0 on an empty vector, which returns an empty vector; it is excluded too.
- Moduli must be positive (`q`, `l`, `modulo` > 0). With a modulus of 0 the C++ `%` is undefined. With a negative p the expression `((a % p) + p) % p` is defined and lands in (p, 0]. That case is excluded because no caller passes a negative modulus: every preset's `q` (17, 23, 29) and `l` (4, 6, 8), and `MODULO` = 17, is positive.
- The round trip decrypt(encrypt(m)) == m is not stated. The code does not guarantee it: `decrypt` ignores the secret key, and the noise is not bounded against `l`.

=== FILE: eval_laws.dfy ===
/**
 * Evaluation as a ring homomorphism: evaluating at t turns the prototype's
 * polynomial product into a product of field elements, and reduction by
 * t^n - 1 leaves the value unchanged wherever t^n is 1.
 */
module EvalLaws {
  import opened ModArith
  import opened Ring
  import opened RingLaws

  // ----- Powers -----

  lemma {:induction false} PowAdd(t: int, i: nat, j: nat)
    ensures Pow(t, i + j) == Pow(t, i) * Pow(t, j)
    decreases i
  {
    if i > 0 {
      PowAdd(t, i - 1, j);
      assert t * (Pow(t, i - 1) * Pow(t, j)) == (t * Pow(t, i - 1)) * Pow(t, j);
    }
  }

  /** Where t^n is 1 mod q, the powers of t repeat with period n. */
  lemma {:induction false} PowPeriodic(t: int, n: int, q: int, i: nat)
    requires n > 0 && q > 0 && Pow(t, n) % q == 1 % q
    ensures Pow(t, i) % q == Pow(t, i % n) % q
    decreases i
  {
    if i < n {
      ModSmall(i, n);
    } else {
      PowPeriodic(t, n, q, i - n);
      PowAdd(t, i - n, n);
      ModMulCongruent(Pow(t, i - n), Pow(t, n), 1, q);
      ModUnique(i - n, n, i / n - 1, i % n);
    }
  }

  // ----- Reduction preserves the value at n-th roots of unity -----

  /** Sum over k < m of FoldSum(a, n, k, i) * t^k: the power sum of the folded, unreduced vector. */
  function FoldedPowerSum(a: seq<int>, n: int, t: int, i: nat, m: nat): int
    requires n > 0
    decreases m
  {
    if m == 0 then 0 else FoldedPowerSum(a, n, t, i, m - 1) + FoldSum(a, n, m - 1, i) * Pow(t, m - 1)
  }

  /** Folding in one more coefficient a_i adds a_i * t^(i mod n) to the folded power sum. */
  lemma {:induction false} FoldedPowerSumStep(a: seq<int>, n: int, t: int, i: nat, m: nat)
    requires n > 0
    ensures FoldedPowerSum(a, n, t, i + 1, m)
         == FoldedPowerSum(a, n, t, i, m) + (if i % n < m then At(a, i) * Pow(t, i % n) else 0)
    decreases m
  {
    if m > 0 {
      FoldedPowerSumStep(a, n, t, i, m - 1);
      var f, w := FoldSum(a, n, m - 1, i), Pow(t, m - 1);
      assert FoldSum(a, n, m - 1, i + 1) == f + (if i % n == m - 1 then At(a, i) else 0);
      assert (f + At(a, i)) * w == f * w + At(a, i) * w;
    }
  }

  /** Nothing folded yet: every folded sum is 0. */
  lemma {:induction false} FoldedPowerSumZero(a: seq<int>, n: int, t: int, m: nat)
    requires n > 0
    ensures FoldedPowerSum(a, n, t, 0, m) == 0
    decreases m
  {
    if m > 0 {
      FoldedPowerSumZero(a, n, t, m - 1);
    }
  }

  /** Mod q, the power sum of a equals that of its fold, when t^n is 1 mod q. */
  lemma {:induction false} PowerSumFolded(a: seq<int>, n: int, t: int, q: int, i: nat)
    requires n > 0 && q > 0 && Pow(t, n) % q == 1 % q
    ensures PowerSum(a, t, i) % q == FoldedPowerSum(a, n, t, i, n) % q
    decreases i
  {
    if i == 0 {
      FoldedPowerSumZero(a, n, t, n);
    } else {
      var j := i - 1;
      PowerSumFolded(a, n, t, q, j);
      FoldedPowerSumStep(a, n, t, j, n);
      PowPeriodic(t, n, q, j);
      var c, w, w' := At(a, j), Pow(t, j), Pow(t, j % n);
      var s, f := PowerSum(a, t, j), FoldedPowerSum(a, n, t, j, n);
      assert PowerSum(a, t, i) == s + c * w;
      assert FoldedPowerSum(a, n, t, i, n) == f + c * w';
      calc {
        PowerSum(a, t, i) % q;
        (s + c * w) % q;
        { ModAdd(s, c * w, q); }
        (s % q + (c * w) % q) % q;
        { ModMulCongruent(c, w, w', q); }
        (f % q + (c * w') % q) % q;
        { ModAdd(f, c * w', q); }
        (f + c * w') % q;
        FoldedPowerSum(a, n, t, i, n) % q;
      }
    }
  }

  /** Reducing each folded coefficient mod q does not change the power sum mod q. */
  lemma {:induction false} ReducedPowerSum(a: seq<int>, n: int, t: int, q: int, m: nat)
    requires n > 0 && q > 0 && m <= n
    ensures PowerSum(Reduce(a, n, q), t, m) % q == FoldedPowerSum(a, n, t, |a|, m) % q
    decreases m
  {
    if m > 0 {
      var k := m - 1;
      ReducedPowerSum(a, n, t, q, k);
      var f, w := FoldSum(a, n, k, |a|), Pow(t, k);
      assert At(Reduce(a, n, q), k) == f % q;
      ModAdd(PowerSum(Reduce(a, n, q), t, k), (f % q) * w, q);
      ModMulLeft(f, w, q);
      ModAdd(FoldedPowerSum(a, n, t, |a|, k), f * w, q);
    }
  }

  /**
   * mod_tn is reduction by t^n - 1: at every point t with t^n = 1 (mod q) the
   * reduced polynomial has the same value as the original.
   */
  lemma ReduceKeepsValue(a: seq<int>, n: int, t: int, q: int)
    requires n > 0 && q > 0 && Pow(t, n) % q == 1 % q
    ensures Value(Reduce(a, n, q), t, q) == Value(a, t, q)
  {
    ReducedPowerSum(a, n, t, q, n);
    PowerSumFolded(a, n, t, q, |a|);
  }

  // ----- Evaluation is multiplicative -----

  /** Sum over k < m of b_(k-s) * t^k: b shifted up by s places, evaluated. */
  function ShiftedPowerSum(b: seq<int>, t: int, s: nat, m: nat): int
    decreases m
  {
    if m == 0 then 0 else ShiftedPowerSum(b, t, s, m - 1) + At(b, m - 1 - s) * Pow(t, m - 1)
  }

  /** Shifting by s places multiplies the value by t^s. */
  lemma {:induction false} ShiftedPowerSumIs(b: seq<int>, t: int, s: nat, m: nat)
    ensures ShiftedPowerSum(b, t, s, m) == if m <= s then 0 else Pow(t, s) * PowerSum(b, t, m - s)
    decreases m
  {
    if m > 0 {
      ShiftedPowerSumIs(b, t, s, m - 1);
      if m - 1 >= s {
        var c, d := At(b, m - 1 - s), m - 1 - s;
        PowAdd(t, s, d);
        assert s + d == m - 1;
        var ws, wd, ps := Pow(t, s), Pow(t, d), PowerSum(b, t, d);
        calc {
          ShiftedPowerSum(b, t, s, m);
          (if m - 1 <= s then 0 else ws * ps) + c * (ws * wd);
          { assert m - 1 == s ==> ps == 0; }
          ws * ps + c * (ws * wd);
          { MulAssoc(c, ws, wd); MulAssoc(ws, c, wd); assert c * ws == ws * c; }
          ws * ps + ws * (c * wd);
          { MulAddDistrib(ws, ps, c * wd); }
          ws * (ps + c * wd);
          Pow(t, s) * PowerSum(b, t, m - s);
        }
      }
    }
  }

  /** Sum over k < m of ConvSum(a, b, k, i) * t^k: the first i rows of the product, evaluated. */
  function ProductPowerSum(a: seq<int>, b: seq<int>, t: int, i: nat, m: nat): int
    decreases m
  {
    if m == 0 then 0 else ProductPowerSum(a, b, t, i, m - 1) + ConvSum(a, b, m - 1, i) * Pow(t, m - 1)
  }

  /** Row i of the convolution contributes a_i times b shifted up by i places. */
  lemma {:induction false} ProductPowerSumRow(a: seq<int>, b: seq<int>, t: int, i: nat, m: nat)
    ensures ProductPowerSum(a, b, t, i + 1, m)
         == ProductPowerSum(a, b, t, i, m) + At(a, i) * ShiftedPowerSum(b, t, i, m)
    decreases m
  {
    if m > 0 {
      ProductPowerSumRow(a, b, t, i, m - 1);
      var c, x, y, w := At(a, i), ConvSum(a, b, m - 1, i), At(b, m - 1 - i), Pow(t, m - 1);
      assert ConvSum(a, b, m - 1, i + 1) == x + c * y;
      MulAddDistrib(w, x, c * y);
      MulAssoc(c, y, w);
      MulAddDistrib(c, ShiftedPowerSum(b, t, i, m - 1), y * w);
    }
  }

  /** The first i rows of the product evaluate to (a's first i terms) times b's value, exactly. */
  lemma {:induction false} ProductPowerSumRows(a: seq<int>, b: seq<int>, t: int, i: nat, m: nat)
    requires i <= |a| && m == |a| + |b| - 1
    ensures ProductPowerSum(a, b, t, i, m) == PowerSum(a, t, i) * PowerSum(b, t, |b|)
    decreases i
  {
    if i == 0 {
      ProductPowerSumZero(a, b, t, m);
    } else {
      var j := i - 1;
      ProductPowerSumRows(a, b, t, j, m);
      ProductPowerSumRow(a, b, t, j, m);
      ShiftedPowerSumIs(b, t, j, m);
      PowerSumBeyond(b, t, m - j);
      var c, w, vb := At(a, j), Pow(t, j), PowerSum(b, t, |b|);
      var pa := PowerSum(a, t, j);
      assert ProductPowerSum(a, b, t, i, m) == pa * vb + c * (w * vb);
      MulAssoc(c, w, vb);
      MulAddDistrib(vb, pa, c * w);
      assert PowerSum(a, t, i) == pa + c * w;
    }
  }

  /** No rows yet: every partial term is 0. */
  lemma {:induction false} ProductPowerSumZero(a: seq<int>, b: seq<int>, t: int, m: nat)
    ensures ProductPowerSum(a, b, t, 0, m) == 0
    decreases m
  {
    if m > 0 {
      ProductPowerSumZero(a, b, t, m - 1);
    }
  }

  /** Reducing each product coefficient mod q does not change the power sum mod q. */
  lemma {:induction false} TimesPowerSum(a: seq<int>, b: seq<int>, t: int, q: int, m: nat)
    requires q > 0 && |a| + |b| > 0 && m <= |a| + |b| - 1
    ensures PowerSum(Times(a, b, q), t, m) % q == ProductPowerSum(a, b, t, |a|, m) % q
    decreases m
  {
    if m > 0 {
      var k := m - 1;
      TimesPowerSum(a, b, t, q, k);
      var f, w := ConvSum(a, b, k, |a|), Pow(t, k);
      assert At(Times(a, b, q), k) == f % q;
      ModAdd(PowerSum(Times(a, b, q), t, k), (f % q) * w, q);
      ModMulLeft(f, w, q);
      ModAdd(ProductPowerSum(a, b, t, |a|, k), f * w, q);
    }
  }

  /** Evaluation is multiplicative: the value of a product is the product of the values, mod q. */
  lemma ValueTimes(a: seq<int>, b: seq<int>, t: int, q: int)
    requires q > 0 && |a| + |b| > 0
    ensures Value(Times(a, b, q), t, q) == (Value(a, t, q) * Value(b, t, q)) % q
  {
    var m := |a| + |b| - 1;
    TimesPowerSum(a, b, t, q, m);
    ProductPowerSumRows(a, b, t, |a|, m);
    var va, vb := PowerSum(a, t, |a|), PowerSum(b, t, |b|);
    ModMulLeft(va, vb, q);
    ModMulLeft(vb, va % q, q);
    assert (vb % q) * (va % q) == (va % q) * (vb % q);
    assert vb * (va % q) == (va % q) * vb;
    assert vb * va == va * vb;
  }
}

=== FILE: giophantus.dfy ===
/**
 * The first Giophantus prototype (Giophantus_druft.cpp): field arithmetic
 * mod p, a Polynomial class over Z_q, reduction into Z_q[t]/(t^n - 1), and
 * the deterministic part of encryption and decryption.
 *
 * The prototype reads the field modulus q, the ring dimension n and the
 * encoding modulus l from globals it never declares. Here they are explicit
 * parameters; Encrypt takes q and n from its parameter set.
 */
module Giophantus {
  import opened ModArith
  import Ring
  import RingLaws

  /** GiophantusParams: field modulus, ring dimension, encoding modulus, degree bounds, message length. */
  datatype Params = Params(q: int, n: int, l: int, dX: int, dr: int, mlen: int)

  const Param128: Params := Params(17, 11, 4, 2, 2, 32)
  const Param192: Params := Params(23, 19, 6, 3, 3, 48)
  const Param256: Params := Params(29, 23, 8, 4, 4, 64)

  /**
   * The numeric demands the operations below make of a parameter set:
   * positive moduli q and l, a positive ring dimension n and degree bounds
   * of at least -1 for the sampled X, r and e.
   */
  predicate Admissible(params: Params) {
    params.q > 0 && params.n > 0 && params.l > 0 && params.dr >= -1 && params.dX + params.dr >= -1
  }

  /** Each of the three preset security levels meets those demands. */
  lemma PresetsAdmissible()
    ensures Admissible(Param128) && Admissible(Param192) && Admissible(Param256)
  {
  }

  // ----- Field arithmetic -----

  /** `mod`: the C++ expression ((a % p) + p) % p, which is the mathematical residue of a. */
  function Mod(a: int, p: int): (r: int)
    requires p > 0
    ensures 0 <= r < p && r == a % p
  {
    CModIsEuclidean(a, p);
    CRem(CRem(a, p) + p, p)
  }

  function Add(a: int, b: int, p: int): (r: int)
    requires p > 0
    ensures 0 <= r < p && r == (a + b) % p
  {
    Mod(a + b, p)
  }

  function Mul(a: int, b: int, p: int): (r: int)
    requires p > 0
    ensures 0 <= r < p && r == (a * b) % p
  {
    Mod(a * b, p)
  }

  function Sub(a: int, b: int, p: int): (r: int)
    requires p > 0
    ensures 0 <= r < p && r == (a - b) % p
  {
    Mod(a - b, p)
  }

  /** Subtracting b undoes adding b: the result is the residue of a. */
  lemma SubUndoesAdd(a: int, b: int, p: int)
    requires p > 0
    ensures Sub(Add(a, b, p), b, p) == Mod(a, p)
  {
    var d := (a + b) / p;
    assert Add(a, b, p) - b == p * (a / p - d) + a % p;
    ModUnique(Add(a, b, p) - b, p, a / p - d, a % p);
  }

  /** Adding b undoes subtracting b: the result is the residue of a. */
  lemma AddUndoesSub(a: int, b: int, p: int)
    requires p > 0
    ensures Add(Sub(a, b, p), b, p) == Mod(a, p)
  {
    var d := (a - b) / p;
    assert Sub(a, b, p) + b == p * (a / p - d) + a % p;
    ModUnique(Sub(a, b, p) + b, p, a / p - d, a % p);
  }

  // ----- Polynomials -----

  /** A polynomial over Z_q: its little-endian coefficient vector, updated in place by Trim and Decrypt. */
  class Polynomial {
    var coeffs: seq<int>

    /** Polynomial(degree): degree + 1 zero coefficients. */
    constructor (degree: int)
      requires degree >= -1
      ensures coeffs == Ring.Zeros(degree + 1)
    {
      coeffs := Ring.Zeros(degree + 1);
    }

    constructor FromCoeffs(c: seq<int>)
      ensures coeffs == c
    {
      coeffs := c;
    }

    /** One less than the number of coefficients: the empty polynomial has degree -1. */
    function Degree(): (d: int)
      reads this
      ensures d >= -1 && d + 1 == |coeffs|
      ensures d == -1 <==> coeffs == []
    {
      |coeffs| - 1
    }

    /** Pops trailing zeros until the vector is empty or ends in a non-zero coefficient. */
    method Trim()
      modifies this
      ensures coeffs == Ring.Trimmed(old(coeffs))
    {
      while |coeffs| > 0 && coeffs[|coeffs| - 1] == 0
        invariant Ring.Trimmed(coeffs) == Ring.Trimmed(old(coeffs))
        decreases |coeffs|
      {
        coeffs := coeffs[..|coeffs| - 1];
      }
    }

    /** operator+: coefficient-wise field addition, the shorter operand read as padded with zeros. */
    method Plus(other: Polynomial, q: int) returns (sum: Polynomial)
      requires q > 0
      ensures fresh(sum)
      ensures sum.coeffs == Ring.Plus(coeffs, other.coeffs, q)
    {
      var result := new int[Ring.Max(|coeffs|, |other.coeffs|)](_ => 0);
      for i := 0 to result.Length
        invariant forall k :: 0 <= k < i ==> result[k] == (Ring.At(coeffs, k) + Ring.At(other.coeffs, k)) % q
      {
        var a := if i < |coeffs| then coeffs[i] else 0;
        var b := if i < |other.coeffs| then other.coeffs[i] else 0;
        result[i] := Add(a, b, q);
      }
      sum := new Polynomial.FromCoeffs(result[..]);
    }

    /** operator*: schoolbook convolution, accumulating a_i * b_j into position i + j. */
    method Times(other: Polynomial, q: int) returns (product: Polynomial)
      requires q > 0 && |coeffs| + |other.coeffs| > 0
      ensures fresh(product)
      ensures product.coeffs == Ring.Times(coeffs, other.coeffs, q)
    {
      var a, b := coeffs, other.coeffs;
      var result := new int[|a| + |b| - 1](_ => 0);
      for i := 0 to |a|
        invariant forall k :: 0 <= k < result.Length ==> result[k] == Ring.ConvSum(a, b, k, i) % q
      {
        for j := 0 to |b|
          invariant forall k :: 0 <= k < result.Length ==> result[k] == Ring.RowSum(a, b, k, i, j) % q
        {
          ghost var before := result[..];
          result[i + j] := Add(result[i + j], Mul(a[i], b[j], q), q);
          forall k | 0 <= k < result.Length
            ensures result[k] == Ring.RowSum(a, b, k, i, j + 1) % q
          {
            RingLaws.RowResidueStep(a, b, k, i, j, q, before[k], result[k]);
          }
        }
      }
      product := new Polynomial.FromCoeffs(result[..]);
    }

    /** mod_tn: folds coefficient i into position i mod n, giving exactly n coefficients. */
    method ModTn(n: int, q: int) returns (reduced: Polynomial)
      requires n > 0 && q > 0
      ensures fresh(reduced)
      ensures reduced.coeffs == Ring.Reduce(coeffs, n, q)
    {
      // The prototype resizes a default (one-zero) polynomial to n zeros.
      var result := new int[n](_ => 0);
      for i := 0 to |coeffs|
        invariant forall k :: 0 <= k < n ==> result[k] == Ring.FoldSum(coeffs, n, k, i) % q
      {
        ModAddLeft(Ring.FoldSum(coeffs, n, i % n, i), coeffs[i], q);
        result[i % n] := Add(result[i % n], coeffs[i], q);
      }
      reduced := new Polynomial.FromCoeffs(result[..]);
    }

    /** eval: sums c_i * t^i, keeping the running power of t reduced mod q. */
    method Eval(t: int, q: int) returns (value: int)
      requires q > 0
      ensures value == Ring.Value(coeffs, t, q)
    {
      value := 0;
      var power := 1;
      for i := 0 to |coeffs|
        invariant value == Ring.PowerSum(coeffs, t, i) % q
        invariant power % q == Ring.Pow(t, i) % q
      {
        var c := coeffs[i];
        RingLaws.PowerSumStep(coeffs, t, q, i, value, power);
        value := Add(value, Mul(c, power, q), q);
        power := Mul(power, t, q);
      }
    }
  }

  // ----- Protocol -----

  /**
   * What random_polynomial(degree, bound) can return: degree + 1 coefficients
   * drawn from [0, bound - 1].
   */
  predicate IsSample(c: seq<int>, degree: int, bound: int) {
    |c| == degree + 1 && forall i :: 0 <= i < |c| ==> 0 <= c[i] < bound
  }

  /**
   * encrypt: mod_tn(message + mod_tn(X * r) + e). The randomness r and the
   * noise e, which the prototype samples itself, are passed in.
   */
  method Encrypt(message: Polynomial, publicKey: Polynomial, params: Params, r: Polynomial, e: Polynomial)
    returns (ciphertext: Polynomial)
    requires params.q > 0 && params.n > 0
    requires IsSample(r.coeffs, params.dr, params.q - 1)
    requires IsSample(e.coeffs, params.dX + params.dr, params.l - 1)
    requires |publicKey.coeffs| + |r.coeffs| > 0  // operator* underflows when both are empty
    ensures fresh(ciphertext)
    ensures ciphertext.coeffs == Ring.Reduce(Ring.Plus(Ring.Plus(message.coeffs,
      Ring.Reduce(Ring.Times(publicKey.coeffs, r.coeffs, params.q), params.n, params.q), params.q),
      e.coeffs, params.q), params.n, params.q)
    ensures ciphertext.coeffs == Ring.Plus(Ring.Plus(Ring.Reduce(message.coeffs, params.n, params.q),
      Ring.Reduce(Ring.Times(publicKey.coeffs, r.coeffs, params.q), params.n, params.q), params.q),
      Ring.Reduce(e.coeffs, params.n, params.q), params.q)
    ensures |ciphertext.coeffs| == params.n && Ring.Normalized(ciphertext.coeffs, params.q)
  {
    var q, n := params.q, params.n;
    var masked := publicKey.Times(r, q);
    var folded := masked.ModTn(n, q);
    var withMessage := message.Plus(folded, q);
    var noisy := withMessage.Plus(e, q);
    ciphertext := noisy.ModTn(n, q);

    var m, p := message.coeffs, masked.coeffs;
    RingLaws.ReducePlus(Ring.Plus(m, folded.coeffs, q), e.coeffs, n, q);
    RingLaws.ReducePlus(m, folded.coeffs, n, q);
    RingLaws.ReduceIdempotent(p, n, q);
  }

  /**
   * decrypt: every ciphertext coefficient reduced mod l. The secret
   * polynomials ux and uy are accepted and not used.
   */
  method Decrypt(ciphertext: Polynomial, ux: Polynomial, uy: Polynomial, l: int) returns (substituted: Polynomial)
    requires l > 0
    ensures fresh(substituted)
    ensures substituted.coeffs == Ring.Residues(ciphertext.coeffs, l)
  {
    substituted := new Polynomial.FromCoeffs(ciphertext.coeffs);
    for i := 0 to |substituted.coeffs|
      invariant |substituted.coeffs| == |ciphertext.coeffs|
      invariant forall k :: 0 <= k < i ==> substituted.coeffs[k] == ciphertext.coeffs[k] % l
      invariant forall k :: i <= k < |substituted.coeffs| ==> substituted.coeffs[k] == ciphertext.coeffs[k]
    {
      substituted.coeffs := substituted.coeffs[i := Mod(substituted.coeffs[i], l)];
    }
  }
}

=== FILE: mod_arith.dfy ===
/**
 * Integer arithmetic as C++ performs it on `int`, and the congruence facts
 * that the polynomial proofs rest on.
 *
 * Dafny's `%` is Euclidean: for a positive divisor the remainder is never
 * negative. C++ `%` truncates toward zero, so its remainder takes the sign of
 * the dividend. `CRem` writes that operator out, so that the source's
 * `((a % p) + p) % p` can be modelled as written and then proved to be the
 * mathematical modulo.
 */
module ModArith {

  /** C++ `a % b` for a positive divisor: truncating division's remainder. */
  function CRem(a: int, b: int): (r: int)
    requires b > 0
    ensures -b < r < b
    ensures a >= 0 ==> r >= 0
    ensures a < 0 ==> r <= 0
  {
    if a >= 0 then a % b else -((-a) % b)
  }

  /** Euclidean division is unique: any decomposition a == q*d + r with r in [0,q) is the one `%` gives. */
  lemma ModUnique(a: int, q: int, d: int, r: int)
    requires q > 0 && 0 <= r < q && a == q * d + r
    ensures a % q == r && a / q == d
  {
    var d', r' := a / q, a % q;
    assert a == q * d' + r';
    assert q * (d - d') == r' - r;
    if d - d' >= 1 {
      MulAtLeast(q, d - d');
    } else if d' - d >= 1 {
      MulAtLeast(q, d' - d);
    }
  }

  lemma MulAtLeast(q: int, x: int)
    requires q > 0 && x >= 1
    ensures q * x >= q
  {
  }

  /** The C++ expression `((a % p) + p) % p` is the mathematical modulo for every a. */
  lemma CModIsEuclidean(a: int, p: int)
    requires p > 0
    ensures CRem(CRem(a, p) + p, p) == a % p
  {
    if a >= 0 {
      ModUnique(a % p + p, p, 1, a % p);
    } else {
      var s := (-a) % p;
      var d := (-a) / p;
      assert -a == p * d + s;
      if s == 0 {
        ModUnique(a, p, -d, 0);
        ModUnique(p, p, 1, 0);
      } else {
        ModUnique(a, p, -d - 1, p - s);
        ModUnique(p - s, p, 0, p - s);
      }
    }
  }

  /** Reducing the summands first does not change the sum's residue. */
  lemma ModAdd(x: int, y: int, q: int)
    requires q > 0
    ensures (x % q + y % q) % q == (x + y) % q
  {
    var dx, rx := x / q, x % q;
    var dy, ry := y / q, y % q;
    var e, s := (rx + ry) / q, (rx + ry) % q;
    assert rx + ry == q * e + s;
    assert x + y == q * (dx + dy + e) + s;
    ModUnique(x + y, q, dx + dy + e, s);
  }

  /** Reducing only the left summand first does not change the residue. */
  lemma ModAddLeft(x: int, y: int, q: int)
    requires q > 0
    ensures (x % q + y) % q == (x + y) % q
  {
    ModAdd(x % q, y, q);
    ModUnique(x % q, q, 0, x % q);
    ModAdd(x, y, q);
  }

  /** Reducing a factor first does not change the product's residue. */
  lemma ModMulLeft(x: int, y: int, q: int)
    requires q > 0
    ensures ((x % q) * y) % q == (x * y) % q
  {
    var d, r := x / q, x % q;
    var e, s := (r * y) / q, (r * y) % q;
    assert r * y == q * e + s;
    calc {
      x * y;
      (q * d + r) * y;
      q * (d * y) + r * y;
      q * (d * y) + q * e + s;
      q * (d * y + e) + s;
    }
    ModUnique(x * y, q, d * y + e, s);
  }

  /** Multiplying congruent numbers by the same factor keeps them congruent. */
  lemma ModMulCongruent(c: int, x: int, y: int, q: int)
    requires q > 0 && x % q == y % q
    ensures (c * x) % q == (c * y) % q
  {
    ModMulLeft(x, c, q);
    ModMulLeft(y, c, q);
    assert x * c == c * x && y * c == c * y;
  }

  /** Multiplication distributes over addition (stated for opaque operands, where the solver needs it). */
  lemma MulAddDistrib(x: int, y: int, z: int)
    ensures x * (y + z) == x * y + x * z
    ensures (y + z) * x == y * x + z * x
  {
  }

  lemma MulAssoc(x: int, y: int, z: int)
    ensures x * (y * z) == (x * y) * z
  {
  }

  /** A value already in [0, q) is its own residue. */
  lemma ModSmall(x: int, q: int)
    requires q > 0 && 0 <= x < q
    ensures x % q == x
  {
    ModUnique(x, q, 0, x);
  }
}

=== FILE: redesign.dfy ===
/**
 * The redesigned prototype (main.cpp): a static FieldArithmetic helper, a
 * Polynomial class whose + and * work mod the fixed MODULO = 17 while
 * evaluate takes its modulus as an argument, a random polynomial generator
 * and key generation.
 */

/** FieldArithmetic: static residue arithmetic for a caller-chosen modulus. */
module FieldArithmetic {
  import opened ModArith

  /** The C++ expression ((a % modulo) + modulo) % modulo: the mathematical residue of a. */
  function Mod(a: int, modulo: int): (r: int)
    requires modulo > 0
    ensures 0 <= r < modulo && r == a % modulo
  {
    CModIsEuclidean(a, modulo);
    CRem(CRem(a, modulo) + modulo, modulo)
  }

  function Add(a: int, b: int, modulo: int): (r: int)
    requires modulo > 0
    ensures 0 <= r < modulo && r == (a + b) % modulo
  {
    Mod(a + b, modulo)
  }

  function Mul(a: int, b: int, modulo: int): (r: int)
    requires modulo > 0
    ensures 0 <= r < modulo && r == (a * b) % modulo
  {
    Mod(a * b, modulo)
  }
}

module Redesign {
  import opened ModArith
  import FieldArithmetic
  import Ring
  import RingLaws

  /** The fixed prime that + and * reduce by, whatever the parameter set. */
  const Modulo: int := 17
  /** The key degree of the 128-bit parameter set. */
  const DefaultDegree: int := 11
  /** The largest secret-key coefficient of the 128-bit parameter set. */
  const NoiseBound: int := 4

  /** GiophantusParams of the redesign: modulus, degree bound of the keys, noise bound, block size. */
  datatype Params = Params(modulo: int, degree: int, noiseBound: int, blockSize: int)

  const Param128: Params := Params(17, 11, 4, 32)
  const Param192: Params := Params(23, 19, 6, 48)
  const Param256: Params := Params(29, 23, 8, 64)

  /** What KeyGen demands of a parameter set: a degree of at least -1, a non-negative noise bound, a positive modulus. */
  predicate Admissible(params: Params) {
    params.degree >= -1 && params.noiseBound >= 0 && params.modulo >= 1
  }

  /** Each preset meets those demands, and the 128-bit one is made of the default constants. */
  lemma PresetsAdmissible()
    ensures Admissible(Param128) && Admissible(Param192) && Admissible(Param256)
    ensures Param128.modulo == Modulo && Param128.degree == DefaultDegree && Param128.noiseBound == NoiseBound
  {
  }

  /** A polynomial: the class's private coefficient vector, updated in place only by Trim. */
  class Polynomial {
    var coeffs: seq<int>

    /** Polynomial(degree): degree + 1 zero coefficients. */
    constructor (degree: int)
      requires degree >= -1
      ensures coeffs == Ring.Zeros(degree + 1)
    {
      coeffs := Ring.Zeros(degree + 1);
    }

    constructor FromCoeffs(c: seq<int>)
      ensures coeffs == c
    {
      coeffs := c;
    }

    /** One less than the number of coefficients: the empty polynomial has degree -1. */
    function Degree(): (d: int)
      reads this
      ensures d >= -1 && d + 1 == |coeffs|
      ensures d == -1 <==> coeffs == []
    {
      |coeffs| - 1
    }

    /** Pops trailing zeros until the vector is empty or ends in a non-zero coefficient. */
    method Trim()
      modifies this
      ensures coeffs == Ring.Trimmed(old(coeffs))
    {
      while |coeffs| > 0 && coeffs[|coeffs| - 1] == 0
        invariant Ring.Trimmed(coeffs) == Ring.Trimmed(old(coeffs))
        decreases |coeffs|
      {
        coeffs := coeffs[..|coeffs| - 1];
      }
    }

    /** operator+: coefficient-wise addition mod 17, the shorter operand read as padded with zeros. */
    method Plus(other: Polynomial) returns (sum: Polynomial)
      ensures fresh(sum)
      ensures sum.coeffs == Ring.Plus(coeffs, other.coeffs, Modulo)
    {
      var maxSize := Ring.Max(|coeffs|, |other.coeffs|);
      var result := new int[maxSize](_ => 0);
      for i := 0 to maxSize
        invariant forall k :: 0 <= k < i ==> result[k] == (Ring.At(coeffs, k) + Ring.At(other.coeffs, k)) % Modulo
      {
        var a := if i < |coeffs| then coeffs[i] else 0;
        var b := if i < |other.coeffs| then other.coeffs[i] else 0;
        result[i] := FieldArithmetic.Add(a, b, Modulo);
      }
      sum := new Polynomial.FromCoeffs(result[..]);
    }

    /** operator*: schoolbook convolution mod 17, accumulating a_i * b_j into position i + j. */
    method Times(other: Polynomial) returns (product: Polynomial)
      requires |coeffs| + |other.coeffs| > 0
      ensures fresh(product)
      ensures product.coeffs == Ring.Times(coeffs, other.coeffs, Modulo)
    {
      var a, b := coeffs, other.coeffs;
      var size := |a| + |b| - 1;
      var result := new int[size](_ => 0);
      for i := 0 to |a|
        invariant forall k :: 0 <= k < size ==> result[k] == Ring.ConvSum(a, b, k, i) % Modulo
      {
        for j := 0 to |b|
          invariant forall k :: 0 <= k < size ==> result[k] == Ring.RowSum(a, b, k, i, j) % Modulo
        {
          ghost var before := result[..];
          result[i + j] := FieldArithmetic.Add(result[i + j], FieldArithmetic.Mul(a[i], b[j], Modulo), Modulo);
          forall k | 0 <= k < size
            ensures result[k] == Ring.RowSum(a, b, k, i, j + 1) % Modulo
          {
            RingLaws.RowResidueStep(a, b, k, i, j, Modulo, before[k], result[k]);
          }
        }
      }
      product := new Polynomial.FromCoeffs(result[..]);
    }

    /** evaluate: sums c_i * x^i mod the given modulus, keeping the running power of x reduced. */
    method Evaluate(x: int, modulo: int) returns (value: int)
      requires modulo > 0
      ensures value == Ring.Value(coeffs, x, modulo)
    {
      value := 0;
      var power := 1;
      for i := 0 to |coeffs|
        invariant value == Ring.PowerSum(coeffs, x, i) % modulo
        invariant power % modulo == Ring.Pow(x, i) % modulo
      {
        var c := coeffs[i];
        RingLaws.PowerSumStep(coeffs, x, modulo, i, value, power);
        value := FieldArithmetic.Add(value, FieldArithmetic.Mul(c, power, modulo), modulo);
        power := FieldArithmetic.Mul(power, x, modulo);
      }
    }
  }

  /**
   * RandomPolynomialGenerator::generate(degree, maxCoeff): degree + 1
   * coefficients, each one draw of uniform_int_distribution(0, maxCoeff).
   * The draws, which come from the Mersenne Twister, are passed in as a
   * stream; the generator takes as many as the vector it allocates holds.
   */
  method Generate(degree: int, maxCoeff: int, draws: seq<int>) returns (p: Polynomial)
    requires degree >= -1 && maxCoeff >= 0
    requires |draws| >= degree + 1
    requires forall i :: 0 <= i < |draws| ==> 0 <= draws[i] <= maxCoeff
    ensures fresh(p)
    ensures p.coeffs == draws[..degree + 1]
    ensures p.Degree() == degree
    ensures forall i :: 0 <= i < |p.coeffs| ==> 0 <= p.coeffs[i] <= maxCoeff
  {
    var coeffs := new int[degree + 1];
    for i := 0 to degree + 1
      invariant forall k :: 0 <= k < i ==> coeffs[k] == draws[k]
    {
      coeffs[i] := draws[i];
    }
    p := new Polynomial.FromCoeffs(coeffs[..]);
  }

  /**
   * What uniform_int_distribution(0, maxCoeff) can supply to a generator of
   * the given degree: at least degree + 1 draws, each in [0, maxCoeff].
   */
  predicate AreDraws(draws: seq<int>, degree: int, maxCoeff: int) {
    |draws| >= degree + 1 && forall i :: 0 <= i < |draws| ==> 0 <= draws[i] <= maxCoeff
  }

  /**
   * GiophantusKeyGen::generate: the secret ux, uy with coefficients in
   * [0, noiseBound] and the public X with coefficients in [0, modulo - 1],
   * all of degree params.degree. The key holder is returned as its three parts.
   */
  method KeyGen(params: Params, uxDraws: seq<int>, uyDraws: seq<int>, xDraws: seq<int>)
    returns (ux: Polynomial, uy: Polynomial, x: Polynomial)
    requires Admissible(params)
    requires AreDraws(uxDraws, params.degree, params.noiseBound)
    requires AreDraws(uyDraws, params.degree, params.noiseBound)
    requires AreDraws(xDraws, params.degree, params.modulo - 1)
    ensures fresh(ux) && fresh(uy) && fresh(x)
    ensures ux.coeffs == uxDraws[..params.degree + 1] && uy.coeffs == uyDraws[..params.degree + 1]
    ensures x.coeffs == xDraws[..params.degree + 1]
    ensures ux.Degree() <= params.degree && uy.Degree() <= params.degree
    ensures Ring.Normalized(x.coeffs, params.modulo)
  {
    ux := Generate(params.degree, params.noiseBound, uxDraws);
    uy := Generate(params.degree, params.noiseBound, uyDraws);
    x := Generate(params.degree, params.modulo - 1, xDraws);
  }
}

=== FILE: ring.dfy ===
/**
 * Reference definitions of the polynomial operations over Z_q.
 *
 * A polynomial is its little-endian coefficient vector: index i holds the
 * coefficient of t^i. These functions say WHAT each operation of the
 * prototype computes, written as closed-form sums; the classes in the
 * Giophantus and Redesign modules compute the same vectors with the
 * prototype's loops and are proved equal to these definitions. Residues are
 * taken with Dafny's Euclidean `%`, which is the mathematical modulo the
 * prototype's `mod` implements.
 */
module Ring {

  function Max(a: int, b: int): int {
    if a >= b then a else b
  }

  /** Coefficient i of a; positions outside the vector read as 0. */
  function At(a: seq<int>, i: int): int {
    if 0 <= i < |a| then a[i] else 0
  }

  /** The vector of m zero coefficients. */
  function Zeros(m: nat): seq<int> {
    seq(m, _ => 0)
  }

  /** Every coefficient is a field element, that is, lies in [0, q). */
  predicate Normalized(a: seq<int>, q: int) {
    forall i :: 0 <= i < |a| ==> 0 <= a[i] < q
  }

  /** Coefficient-wise sum mod q; the shorter operand is padded with zeros. */
  function Plus(a: seq<int>, b: seq<int>, q: int): seq<int>
    requires q > 0
  {
    seq(Max(|a|, |b|), i => (At(a, i) + At(b, i)) % q)
  }

  /** Sum over j < i of a_j * b_(k-j): the part of the k-th convolution term contributed by a's first i coefficients. */
  function ConvSum(a: seq<int>, b: seq<int>, k: int, i: nat): int
    decreases i
  {
    if i == 0 then 0 else ConvSum(a, b, k, i - 1) + At(a, i - 1) * At(b, k - (i - 1))
  }

  /**
   * The convolution term k part-way through the schoolbook loops: all of a's
   * first i coefficients, plus a_i * b_(k-i) if row i has reached column k - i.
   */
  function RowSum(a: seq<int>, b: seq<int>, k: int, i: nat, j: nat): int
    requires i < |a| && j <= |b|
  {
    ConvSum(a, b, k, i) + (if i <= k < i + j then a[i] * b[k - i] else 0)
  }

  /**
   * Full (unreduced by t^n - 1) product: coefficient k is the sum of a_i * b_j
   * over all i + j == k, mod q. The vector has |a| + |b| - 1 entries, which is
   * defined as long as not both operands are empty.
   */
  function Times(a: seq<int>, b: seq<int>, q: int): seq<int>
    requires q > 0 && |a| + |b| > 0
  {
    seq(|a| + |b| - 1, k => ConvSum(a, b, k, |a|) % q)
  }

  /** Sum of the coefficients a_j with j < i and j congruent to k mod n. */
  function FoldSum(a: seq<int>, n: int, k: int, i: nat): int
    requires n > 0
    decreases i
  {
    if i == 0 then 0
    else FoldSum(a, n, k, i - 1) + (if (i - 1) % n == k then At(a, i - 1) else 0)
  }

  /**
   * Reduction into Z_q[t]/(t^n - 1): exactly n coefficients, coefficient k
   * being the sum of all a_i with i mod n == k, mod q (t^n is identified with 1).
   */
  function Reduce(a: seq<int>, n: int, q: int): seq<int>
    requires n > 0 && q > 0
  {
    seq(n, k => FoldSum(a, n, k, |a|) % q)
  }

  function Pow(t: int, i: nat): int
    decreases i
  {
    if i == 0 then 1 else t * Pow(t, i - 1)
  }

  /** Sum over j < i of a_j * t^j, without reduction. */
  function PowerSum(a: seq<int>, t: int, i: nat): int
    decreases i
  {
    if i == 0 then 0 else PowerSum(a, t, i - 1) + At(a, i - 1) * Pow(t, i - 1)
  }

  /** The polynomial evaluated at t, as a field element: (sum of a_i * t^i) mod q. */
  function Value(a: seq<int>, t: int, q: int): int
    requires q > 0
  {
    PowerSum(a, t, |a|) % q
  }

  /** Every coefficient reduced mod m, length unchanged. */
  function Residues(a: seq<int>, m: int): seq<int>
    requires m > 0
  {
    seq(|a|, i requires 0 <= i < |a| => a[i] % m)
  }

  /**
   * The canonical form: trailing zero coefficients dropped. The result is the
   * longest prefix of s that does not end in 0, and everything it drops is 0.
   */
  function Trimmed(s: seq<int>): (r: seq<int>)
    ensures |r| <= |s| && r == s[..|r|]
    ensures r == [] || r[|r| - 1] != 0
    ensures forall i :: |r| <= i < |s| ==> s[i] == 0
    decreases |s|
  {
    if |s| > 0 && s[|s| - 1] == 0 then Trimmed(s[..|s| - 1]) else s
  }
}

=== FILE: ring_laws.dfy ===
/**
 * Algebraic laws of the reference operations in Ring: what the prototype's
 * ring engine promises beyond computing each vector.
 */
module RingLaws {
  import opened ModArith
  import opened Ring

  // ----- Canonical form -----

  /** Trimming is idempotent: a trimmed vector is already canonical. */
  lemma TrimmedIdempotent(s: seq<int>)
    ensures Trimmed(Trimmed(s)) == Trimmed(s)
  {
  }

  /** The canonical form is the only prefix that drops just zeros and does not end in 0. */
  lemma TrimmedUnique(s: seq<int>, r: seq<int>)
    requires |r| <= |s| && r == s[..|r|]
    requires r == [] || r[|r| - 1] != 0
    requires forall i :: |r| <= i < |s| ==> s[i] == 0
    ensures r == Trimmed(s)
  {
  }

  /** A vector of zeros trims to the empty polynomial. */
  lemma TrimmedZeros(m: nat)
    ensures Trimmed(Zeros(m)) == []
  {
  }

  // ----- Addition -----

  /** Addition is commutative. */
  lemma PlusCommutes(a: seq<int>, b: seq<int>, q: int)
    requires q > 0
    ensures Plus(a, b, q) == Plus(b, a, q)
  {
  }

  /** Every coefficient of a sum is a field element, and the length is that of the longer operand. */
  lemma PlusShape(a: seq<int>, b: seq<int>, q: int)
    requires q > 0
    ensures |Plus(a, b, q)| == Max(|a|, |b|) && Normalized(Plus(a, b, q), q)
    ensures forall i :: 0 <= i < |a| && i < |b| ==> Plus(a, b, q)[i] == (a[i] + b[i]) % q
    ensures forall i :: |b| <= i < |a| ==> Plus(a, b, q)[i] == a[i] % q
    ensures forall i :: |a| <= i < |b| ==> Plus(a, b, q)[i] == b[i] % q
  {
  }

  /**
   * The zero polynomial of m coefficients is a left identity for every
   * normalized vector at least as long.
   */
  lemma PlusZeros(m: nat, a: seq<int>, q: int)
    requires q > 0 && m <= |a| && Normalized(a, q)
    ensures Plus(Zeros(m), a, q) == a
  {
    forall i | 0 <= i < |a|
      ensures Plus(Zeros(m), a, q)[i] == a[i]
    {
      ModSmall(a[i], q);
    }
  }

  // ----- Multiplication -----

  /** A product has |a| + |b| - 1 coefficients, each a field element. */
  lemma TimesShape(a: seq<int>, b: seq<int>, q: int)
    requires q > 0 && |a| + |b| > 0
    ensures |Times(a, b, q)| == |a| + |b| - 1 && Normalized(Times(a, b, q), q)
  {
  }

  /** One more column of row i adds a_i * b_j to term i + j and nothing elsewhere. */
  lemma RowSumStep(a: seq<int>, b: seq<int>, k: int, i: nat, j: nat)
    requires i < |a| && j < |b|
    ensures RowSum(a, b, k, i, j + 1) == RowSum(a, b, k, i, j) + (if k == i + j then a[i] * b[j] else 0)
  {
  }

  /**
   * The residue kept for term k after the schoolbook step (i, j): term i + j
   * accumulates (a_i * b_j) mod q, every other term keeps its residue.
   */
  lemma RowResidueStep(a: seq<int>, b: seq<int>, k: int, i: nat, j: nat, q: int, before: int, after: int)
    requires q > 0 && i < |a| && j < |b|
    requires before == RowSum(a, b, k, i, j) % q
    requires after == if k == i + j then (before + (a[i] * b[j]) % q) % q else before
    ensures after == RowSum(a, b, k, i, j + 1) % q
  {
    RowSumStep(a, b, k, i, j);
    if k == i + j {
      ModAdd(RowSum(a, b, k, i, j), a[i] * b[j], q);
    }
  }

  /** The empty polynomial times anything trims to the empty polynomial. */
  lemma TimesByEmpty(b: seq<int>, q: int)
    requires q > 0 && |b| > 0
    ensures Trimmed(Times([], b, q)) == []
  {
    assert Times([], b, q) == Zeros(|b| - 1);
    TrimmedZeros(|b| - 1);
  }

  /** Multiplying by the constant 1 only reduces the coefficients mod q. */
  lemma TimesByOne(b: seq<int>, q: int)
    requires q > 0
    ensures Times([1], b, q) == Residues(b, q)
  {
    forall k | 0 <= k < |b|
      ensures Times([1], b, q)[k] == b[k] % q
    {
      assert ConvSum([1], b, k, 1) == b[k];
    }
  }

  /** Sum over lo <= j < hi of a_j * b_(k-j): a window of the k-th convolution term. */
  function Window(a: seq<int>, b: seq<int>, k: int, lo: int, hi: int): int
    decreases hi - lo
  {
    if hi <= lo then 0 else Window(a, b, k, lo, hi - 1) + At(a, hi - 1) * At(b, k - (hi - 1))
  }

  lemma {:induction false} ConvSumIsWindow(a: seq<int>, b: seq<int>, k: int, i: nat)
    ensures ConvSum(a, b, k, i) == Window(a, b, k, 0, i)
    decreases i
  {
    if i > 0 {
      ConvSumIsWindow(a, b, k, i - 1);
    }
  }

  /** A window can also be taken apart at its low end. */
  lemma {:induction false} WindowPeelLow(a: seq<int>, b: seq<int>, k: int, lo: int, hi: int)
    requires lo < hi
    ensures Window(a, b, k, lo, hi) == At(a, lo) * At(b, k - lo) + Window(a, b, k, lo + 1, hi)
    decreases hi - lo
  {
    if lo + 1 < hi {
      WindowPeelLow(a, b, k, lo, hi - 1);
    }
  }

  /** Read backwards, a window of a * b is a window of b * a. */
  lemma {:induction false} WindowReverse(a: seq<int>, b: seq<int>, k: int, lo: int, hi: int)
    ensures Window(a, b, k, lo, hi) == Window(b, a, k, k - hi + 1, k - lo + 1)
    decreases hi - lo
  {
    if lo < hi {
      WindowReverse(a, b, k, lo, hi - 1);
      WindowPeelLow(b, a, k, k - hi + 1, k - lo + 1);
      assert At(b, k - hi + 1) * At(a, k - (k - hi + 1)) == At(a, hi - 1) * At(b, k - (hi - 1));
    }
  }

  /** Widening a window upwards over zero terms changes nothing. */
  lemma {:induction false} WindowExtendHigh(a: seq<int>, b: seq<int>, k: int, lo: int, hi: int, hi': int)
    requires lo <= hi <= hi'
    requires forall j :: hi <= j < hi' ==> At(a, j) * At(b, k - j) == 0
    ensures Window(a, b, k, lo, hi') == Window(a, b, k, lo, hi)
    decreases hi' - hi
  {
    if hi < hi' {
      WindowExtendHigh(a, b, k, lo, hi, hi' - 1);
    }
  }

  /** Widening a window downwards over zero terms changes nothing. */
  lemma {:induction false} WindowExtendLow(a: seq<int>, b: seq<int>, k: int, lo': int, lo: int, hi: int)
    requires lo' <= lo <= hi
    requires forall j :: lo' <= j < lo ==> At(a, j) * At(b, k - j) == 0
    ensures Window(a, b, k, lo', hi) == Window(a, b, k, lo, hi)
    decreases lo - lo'
  {
    if lo' < lo {
      WindowPeelLow(a, b, k, lo', hi);
      WindowExtendLow(a, b, k, lo' + 1, lo, hi);
    }
  }

  /** The k-th convolution term is symmetric in its two operands. */
  lemma ConvSumCommutes(a: seq<int>, b: seq<int>, k: int)
    ensures ConvSum(a, b, k, |a|) == ConvSum(b, a, k, |b|)
  {
    var lo := if k - |a| + 1 < 0 then k - |a| + 1 else 0;
    var hi := Max(|b|, k + 1);
    ConvSumIsWindow(a, b, k, |a|);
    ConvSumIsWindow(b, a, k, |b|);
    WindowReverse(a, b, k, 0, |a|);
    WindowExtendLow(b, a, k, lo, k - |a| + 1, k + 1);
    WindowExtendHigh(b, a, k, lo, k + 1, hi);
    WindowExtendLow(b, a, k, lo, 0, |b|);
    WindowExtendHigh(b, a, k, lo, |b|, hi);
  }

  /** Multiplication is commutative. */
  lemma TimesCommutes(a: seq<int>, b: seq<int>, q: int)
    requires q > 0 && |a| + |b| > 0
    ensures Times(a, b, q) == Times(b, a, q)
  {
    forall k | 0 <= k < |a| + |b| - 1
      ensures Times(a, b, q)[k] == Times(b, a, q)[k]
    {
      ConvSumCommutes(a, b, k);
    }
  }

  // ----- Reduction by t^n - 1 -----

  /** A reduced element has exactly n coefficients, all field elements. */
  lemma ReduceShape(a: seq<int>, n: int, q: int)
    requires n > 0 && q > 0
    ensures |Reduce(a, n, q)| == n && Normalized(Reduce(a, n, q), q)
  {
  }

  /** Positions past the end of a contribute nothing to the folded sums. */
  lemma {:induction false} FoldSumBeyond(a: seq<int>, n: int, k: int, i: nat)
    requires n > 0 && i >= |a|
    ensures FoldSum(a, n, k, i) == FoldSum(a, n, k, |a|)
    decreases i
  {
    if i > |a| {
      FoldSumBeyond(a, n, k, i - 1);
    }
  }

  /** Below n, only position k itself is congruent to k, so the folded sum is one coefficient. */
  lemma {:induction false} FoldSumShort(a: seq<int>, n: int, k: int, i: nat)
    requires 0 <= k < n && i <= n
    ensures FoldSum(a, n, k, i) == if k < i then At(a, k) else 0
    decreases i
  {
    if i > 0 {
      FoldSumShort(a, n, k, i - 1);
      ModSmall(i - 1, n);
    }
  }

  /** Reduction is idempotent: reducing a reduced element is a no-op. */
  lemma ReduceIdempotent(a: seq<int>, n: int, q: int)
    requires n > 0 && q > 0
    ensures Reduce(Reduce(a, n, q), n, q) == Reduce(a, n, q)
  {
    var r := Reduce(a, n, q);
    forall k | 0 <= k < n
      ensures Reduce(r, n, q)[k] == r[k]
    {
      FoldSumShort(r, n, k, n);
      ModSmall(r[k], q);
    }
  }

  /** Folded sums of a sum are, mod q, the sums of the folded sums. */
  lemma {:induction false} FoldSumPlus(a: seq<int>, b: seq<int>, n: int, k: int, q: int, i: nat)
    requires n > 0 && q > 0
    ensures FoldSum(Plus(a, b, q), n, k, i) % q == (FoldSum(a, n, k, i) + FoldSum(b, n, k, i)) % q
    decreases i
  {
    if i > 0 {
      var p := Plus(a, b, q);
      var j := i - 1;
      FoldSumPlus(a, b, n, k, q, j);
      if j % n == k {
        var sp, sa, sb := FoldSum(p, n, k, j), FoldSum(a, n, k, j), FoldSum(b, n, k, j);
        var x := At(a, j) + At(b, j);
        assert At(p, j) == x % q;
        assert FoldSum(a, n, k, i) + FoldSum(b, n, k, i) == sa + sb + x;
        calc {
          FoldSum(p, n, k, i) % q;
          (sp + At(p, j)) % q;
          { ModAdd(sp, At(p, j), q); }
          (sp % q + At(p, j) % q) % q;
          { ModUnique(x % q, q, 0, x % q); }
          ((sa + sb) % q + x % q) % q;
          { ModAdd(sa + sb, x, q); }
          (sa + sb + x) % q;
          (FoldSum(a, n, k, i) + FoldSum(b, n, k, i)) % q;
        }
      }
    }
  }

  /** Reduction commutes with addition: it is additive, as a quotient map must be. */
  lemma ReducePlus(a: seq<int>, b: seq<int>, n: int, q: int)
    requires n > 0 && q > 0
    ensures Reduce(Plus(a, b, q), n, q) == Plus(Reduce(a, n, q), Reduce(b, n, q), q)
  {
    var p := Plus(a, b, q);
    forall k | 0 <= k < n
      ensures Reduce(p, n, q)[k] == Plus(Reduce(a, n, q), Reduce(b, n, q), q)[k]
    {
      var m := |p|;
      FoldSumPlus(a, b, n, k, q, m);
      FoldSumBeyond(a, n, k, m);
      FoldSumBeyond(b, n, k, m);
      ModAdd(FoldSum(a, n, k, |a|), FoldSum(b, n, k, |b|), q);
    }
  }

  // ----- Evaluation -----

  /**
   * One step of the evaluation loop: with value and power the running sum
   * and power of t reduced mod q, adding c_i * power and multiplying power
   * by t keeps both reduced sums right for i + 1 terms.
   */
  lemma PowerSumStep(a: seq<int>, t: int, q: int, i: nat, value: int, power: int)
    requires q > 0 && i < |a|
    requires value == PowerSum(a, t, i) % q && power % q == Pow(t, i) % q
    ensures (value + (a[i] * power) % q) % q == PowerSum(a, t, i + 1) % q
    ensures ((power * t) % q) % q == Pow(t, i + 1) % q
  {
    var s, w := PowerSum(a, t, i), Pow(t, i);
    ModMulCongruent(a[i], power, w, q);
    ModAdd(s, a[i] * w, q);
    ModMulCongruent(t, power, w, q);
    assert power * t == t * power;
    var r := (power * t) % q;
    ModSmall(r, q);
  }

  /** Positions past the end of a contribute nothing to the power sum. */
  lemma {:induction false} PowerSumBeyond(a: seq<int>, t: int, i: nat)
    requires i >= |a|
    ensures PowerSum(a, t, i) == PowerSum(a, t, |a|)
    decreases i
  {
    if i > |a| {
      PowerSumBeyond(a, t, i - 1);
    }
  }

  /** Power sums of a sum are, mod q, the sums of the power sums. */
  lemma {:induction false} PowerSumPlus(a: seq<int>, b: seq<int>, t: int, q: int, i: nat)
    requires q > 0
    ensures PowerSum(Plus(a, b, q), t, i) % q == (PowerSum(a, t, i) + PowerSum(b, t, i)) % q
    decreases i
  {
    if i > 0 {
      var p := Plus(a, b, q);
      var j := i - 1;
      PowerSumPlus(a, b, t, q, j);
      var sp, sa, sb := PowerSum(p, t, j), PowerSum(a, t, j), PowerSum(b, t, j);
      var x, w := At(a, j) + At(b, j), Pow(t, j);
      assert At(p, j) == x % q;
      calc {
        PowerSum(p, t, i) % q;
        (sp + (x % q) * w) % q;
        { ModAdd(sp, (x % q) * w, q); }
        (sp % q + ((x % q) * w) % q) % q;
        { ModMulLeft(x, w, q); }
        ((sa + sb) % q + (x * w) % q) % q;
        { ModAdd(sa + sb, x * w, q); }
        (sa + sb + x * w) % q;
        { assert x * w == At(a, j) * w + At(b, j) * w; }
        (PowerSum(a, t, i) + PowerSum(b, t, i)) % q;
      }
    }
  }

  /** Evaluation is additive: the value of a sum is the sum of the values, mod q. */
  lemma ValuePlus(a: seq<int>, b: seq<int>, t: int, q: int)
    requires q > 0
    ensures Value(Plus(a, b, q), t, q) == (Value(a, t, q) + Value(b, t, q)) % q
  {
    var m := Max(|a|, |b|);
    PowerSumPlus(a, b, t, q, m);
    PowerSumBeyond(a, t, m);
    PowerSumBeyond(b, t, m);
    ModAdd(PowerSum(a, t, |a|), PowerSum(b, t, |b|), q);
  }

  /** Two vectors that agree at every position (reading 0 outside) have equal power sums. */
  lemma {:induction false} PowerSumAgree(a: seq<int>, b: seq<int>, t: int, i: nat)
    requires forall j :: 0 <= j < i ==> At(a, j) == At(b, j)
    ensures PowerSum(a, t, i) == PowerSum(b, t, i)
    decreases i
  {
    if i > 0 {
      PowerSumAgree(a, b, t, i - 1);
    }
  }

  /** Trailing zeros do not change the value: a polynomial and its canonical form evaluate alike. */
  lemma ValueTrimmed(a: seq<int>, t: int, q: int)
    requires q > 0
    ensures Value(Trimmed(a), t, q) == Value(a, t, q)
  {
    var r := Trimmed(a);
    forall j | 0 <= j < |a|
      ensures At(r, j) == At(a, j)
    {
      if j < |r| {
        assert r[j] == a[..|r|][j];
      }
    }
    PowerSumAgree(r, a, t, |a|);
    PowerSumBeyond(r, t, |a|);
  }

  // ----- Coefficient-wise residues -----

  /** Residues keep the length, land in [0, m) and stay congruent to the original coefficients. */
  lemma ResiduesShape(a: seq<int>, m: int)
    requires m > 0
    ensures |Residues(a, m)| == |a| && Normalized(Residues(a, m), m)
    ensures forall i :: 0 <= i < |a| ==> Residues(a, m)[i] % m == a[i] % m
  {
    forall i | 0 <= i < |a|
      ensures Residues(a, m)[i] % m == a[i] % m
    {
      ModSmall(a[i] % m, m);
    }
  }

  /** A vector whose coefficients are already in [0, m) is its own residue vector. */
  lemma ResiduesOfNormalized(a: seq<int>, m: int)
    requires m > 0 && Normalized(a, m)
    ensures Residues(a, m) == a
  {
    forall i | 0 <= i < |a|
      ensures Residues(a, m)[i] == a[i]
    {
      ModSmall(a[i], m);
    }
  }

  /** Taking residues twice is taking them once. */
  lemma ResiduesIdempotent(a: seq<int>, m: int)
    requires m > 0
    ensures Residues(Residues(a, m), m) == Residues(a, m)
  {
    ResiduesShape(a, m);
    ResiduesOfNormalized(Residues(a, m), m);
  }
}
